=== FILE: README.md ===
# artof-select: the closed-control display and the select-all toggle

This project models, in Dafny, the two pure decisions of the artof-select dropdown
widget that its helpers make on every render:

- **SelectedValues** decides what the closed control shows. It shows one of four
  things: the placeholder; a single text (an option's label or the raw value); a
  "`textSelected` N" summary; or a list of tag chips with an optional count badge.
  Every outcome other than the placeholder also says whether the clear button is
  rendered.
- **SelectAllButton** decides what "select all / deselect all" emits in a multiple
  select: the empty selection when the option count equals the selection's length,
  otherwise the values of the visible (search-filtered) options. It also decides when
  the button is styled as selected, and which key-ups count as a click.

Modules:

- `Wrappers` (`wrappers.dfy`): `Option`, standing for JavaScript's `undefined`.
- `Sequences` (`sequences.dfy`): an order-preserving subsequence predicate, the
  duplicate-freedom predicate `Distinct`, and `DistinctCardinality`, which counts the
  elements of a duplicate-free sequence.
- `SelectTypes` (`select_types.dfy`): the option record of `src/Select.types.ts`, with
  the `label` field named `labelText` because `label` is a Dafny keyword. It also holds
  the single/multiple value shape as one tagged union `Selection`, JavaScript
  truthiness of texts (`undefined` and `""` are falsy), `||`, and the template-literal
  key `${option.value}`, under which an absent value prints as `"undefined"`.
- `SelectedValues` (`selected_values.dfy`): the display decision and its properties.
- `SelectAllButton` (`select_all_button.dfy`): the select-all click, the key-up
  handler and the selected marker, with their properties.
- `SelectExamples` (`select_examples.dfy`): four displays the widget's own tests
  expect, and two edge cases of the matching rules, checked against the model.

The `multiple` flag and the shape of `value` are one datatype here: a single
optional text, or an optional list of texts. The code casts `value` to the shape
`multiple` selects (src/helpers/SelectedValues.tsx:40, 98) and so assumes the two
agree. Neither the helper's own props nor the public prop types enforce this, since
`multiple` is optional in both value shapes. Inputs where they disagree are left out
(see below). Callbacks are modelled by what they would be called with: `OnClickAll`
returns `None` when no `onChange` is supplied.

Points of behaviour worth knowing:

- Single mode only ever shows `label || value`, never `component`
  (src/helpers/SelectedValues.tsx:99-104).
- In single mode a non-empty value that matches no option, or matches one with an
  empty label, is shown raw (src/helpers/SelectedValues.tsx:101-104). Only a falsy
  label together with a falsy value gives the placeholder (:101, :117).
- Matching in single mode is strict equality on optional texts (:99). An absent `value`
  therefore matches the first option whose `value` is absent, and shows that option's
  label (`SelectExamples.AbsentValueMatchesValuelessOption`).
- "All selected" compares lengths (src/helpers/SelectAllButton.tsx:28). It is right
  for distinctly keyed options and a duplicate-free selection of option keys: the
  clearing branch is taken exactly when every key is selected
  (`SelectAllButton.CompleteSelectionClears`, `SelectAllButton.MarkedMeansComplete`).
  It misfires for foreign values of the right length
  (`SelectAllButton.LengthNotMembership`) and for extra values
  (`SelectAllButton.SupersetDoesNotClear`).
- Select-all can emit the same text twice, for instance for two options without a
  value (`SelectAllButton.DuplicateKeysEmitted`). With distinctly keyed options its
  output is a duplicate-free selection of exactly their keys
  (`SelectAllButton.KeysOfDistinct`).

## Model

| member | source | states |
|---|---|---|
| `SelectedValues.FindIndex` | src/helpers/SelectedValues.tsx:99 | `find` stops at the first option whose value strictly equals `value`; no index means no option has that value |
| `SelectedValues.SingleDisplay` | src/helpers/SelectedValues.tsx:98-117 | if the first matching option has a non-empty label, that label is shown; otherwise a non-empty value is shown raw (no match, or a match with an empty label); otherwise the placeholder. The clear button is present iff `allowClear` |
| `SelectedValues.TagOptions` | src/helpers/SelectedValues.tsx:43-45 | the tagged options are exactly those whose stringified value is in the selection, each as often as in the option list, in option-list order |
| `SelectedValues.TagsDisplay` | src/helpers/SelectedValues.tsx:42-76 | placeholder iff no option is tagged, even for a non-empty selection; otherwise the tags in option order, a badge iff `allowTagsCount` equal to the number of tags, and a clear button iff `allowClear` |
| `SelectedValues.ChipOf` | src/helpers/SelectedValues.tsx:63 | a chip shows the option's component when one is supplied, else its label |
| `SelectedValues.Render` | src/helpers/SelectedValues.tsx:38-117 | single mode gives only text or placeholder; tag mode gives only tags or placeholder; summary mode gives a summary iff the selection is non-empty, counting every entry, and the placeholder otherwise; a placeholder result carries the placeholder and never a clear button; every other result has a clear button iff `allowClear`; a shown text is never empty |
| `SelectedValues.SummaryIgnoresOptions` | src/helpers/SelectedValues.tsx:77-82 | the summary display does not depend on the option list, so selected entries that match no option are counted too |
| `SelectedValues.TagCountIsSelectedKeys` | src/helpers/SelectedValues.tsx:43-55 | with distinctly keyed options, the number of tags is the number of distinct selected texts that are some option's key |
| `SelectedValues.TagCountMatchesSummaryCount` | src/helpers/SelectedValues.tsx:43-81 | with distinctly keyed options and a duplicate-free selection of option values, there is one tag per selected value, so the count badge equals the `value.length` the summary shows |
| `SelectAllButton.Keys` | src/helpers/SelectAllButton.tsx:31 | the emitted values are the visible options' stringified values, in visible order, one per option |
| `SelectAllButton.OnClickAll` | src/helpers/SelectAllButton.tsx:25-34 | no callback means no effect; when the option count equals the selection's length the empty selection is emitted; otherwise the visible options' values, in order |
| `SelectAllButton.MarkerMatchesClick` | src/helpers/SelectAllButton.tsx:48 | the selected marker is shown exactly when a click takes the clearing branch; without the marker a click with some visible option never emits the empty selection |
| `SelectAllButton.AbsentValueNeverClears` | src/helpers/SelectAllButton.tsx:28 | with an absent selection the length test fails even for an empty option list, so a click selects the visible options |
| `SelectAllButton.LengthNotMembership` | src/helpers/SelectAllButton.tsx:28-29 | a selection of the right length counts as complete even when none of its values names an option |
| `SelectAllButton.ToggleRoundTrip` | src/helpers/SelectAllButton.tsx:28-31 | with nothing filtered out, a click on a click's non-empty output clears, and two clicks from the empty selection return to it |
| `SelectAllButton.CompleteSelectionClears` | src/helpers/SelectAllButton.tsx:27-29 | with distinctly keyed options and a duplicate-free selection of exactly their keys, the marker is shown and a click clears, as the comment "all options were already selected" intends |
| `SelectAllButton.MarkedMeansComplete` | src/helpers/SelectAllButton.tsx:27-29 | conversely, under the same conditions, a selection that takes the clearing branch holds every option's key, so the branch is taken exactly when all options are selected |
| `SelectAllButton.KeysOfDistinct` | src/helpers/SelectAllButton.tsx:31 | for distinctly keyed options select-all emits a duplicate-free selection of exactly their keys; `DuplicateKeysEmitted` shows what goes wrong without distinct keys |
| `SelectAllButton.SupersetDoesNotClear` | src/helpers/SelectAllButton.tsx:28-31 | every option selected plus one extra value is not "all selected": options `[a]` with selection `["a", "x"]` emit `["a"]` |
| `SelectAllButton.DuplicateKeysEmitted` | src/helpers/SelectAllButton.tsx:31 | two options without a value make select-all emit `["undefined", "undefined"]`, a selection with a repeated entry |
| `SelectAllButton.ActivationKeys` | src/helpers/SelectAllButton.tsx:37 | the activating keys are exactly `" "` and every upper/lower-case spelling of `"enter"` |
| `SelectAllButton.KeyupActsAsClick` | src/helpers/SelectAllButton.tsx:36-40 | a key-up with an activating key acts exactly as a click; any other key, or no key, does nothing |
| `SelectExamples.ShowsSelectedLabel` | src/Select.spec.tsx:536-544 | a single select with value `"string2"` shows `"String 2 label"` |
| `SelectExamples.ShowsPlaceholderWithoutValue` | src/Select.spec.tsx:404-416 | with no value the placeholder is shown |
| `SelectExamples.EmptyValueShowsItsOption` | src/Select.spec.tsx:563-574 | the value `""` naming `{label: "No value", value: ""}` shows "No value", not the placeholder |
| `SelectExamples.ShowsSelectedCount` | src/Select.spec.tsx:546-561 | two selected values in summary mode show "Selected 2" |
| `SelectExamples.AbsentValueMatchesValuelessOption` | src/helpers/SelectedValues.tsx:99-101 | an absent value matches an option without a value, so its label is shown instead of the placeholder |
| `SelectExamples.ValuelessOptionTaggedByUndefined` | src/helpers/SelectedValues.tsx:43-66 | in tag mode an option without a value is tagged by the selected text `"undefined"`, and its chip shows its label |

## Left out

- SelectedValues.Render: inputs whose `multiple` flag disagrees with the shape of
  `value` are not modelled. With `multiple` false and an array value the code would
  show the array as text, with the clear button when `allowClear` is set, even when the
  array is empty. An absent `options` list is not modelled either; the helpers would
  throw on it at `.filter` and `.find`. The code's casts at
  src/helpers/SelectedValues.tsx:40 and :98 assume a matching shape, and the caller
  supplies an option list.
- Rendering: JSX, class-name strings and the `classNames` helper are presentation only.
  The React `key` of each chip is also presentation.
- The clear button's action (setting the hidden select's value to `""` and firing a
  synthetic `change`) is DOM I/O. The model only records whether the button is present.
- The dropdown controller (open/close, the per-option toggle, search filtering, the
  console warning, and ref/aria/data-* passthrough) is not part of this model. So is
  the default `textSelected` of "Selected" that the tests rely on; the examples pass it
  explicitly.
- Numeric `ReactText` values are left out, so labels and values are texts only. The
  number `0` would be falsy and `${0}` would print as `"0"`.
- A supplied `component` is always treated as truthy. Falsy render fragments (`null`,
  `false`, `""`, `0`) count as not supplied.
- `renderValue` and `dropdownOffset` carry no logic in these helpers.
- `SelectAllButton.LowerChar`: only ASCII letters are lower-cased, not the full Unicode
  mapping of `toLowerCase`. The keys compared against are `"enter"` and `" "`, and no
  other character lower-cases to one of those letters or to a space.

=== FILE: select_all_button.dfy ===
/** The "select all / deselect all" entry of a multiple select
    (src/helpers/SelectAllButton.tsx). The `onChange` callback is modelled by what it
    would be called with: `None` when no callback is supplied, else `Some(values)`. */
module SelectAllButton {
  import opened Wrappers
  import opened SelectTypes
  import opened Sequences

  /** The "selected" styling of the button: the option count equals the selection's
      length. An absent selection has no length, so it never compares equal. */
  predicate MarkedSelected(options: seq<SelectOption>, value: Option<seq<string>>) {
    value.Some? && |options| == |value.value|
  }

  /** The stringified values of `opts`, in order. */
  function Keys(opts: seq<SelectOption>): (keys: seq<string>)
    ensures |keys| == |opts|
    ensures forall k :: 0 <= k < |opts| ==> keys[k] == Key(opts[k])
  {
    seq(|opts|, k requires 0 <= k < |opts| => Key(opts[k]))
  }

  /** A click: nothing without a callback; the empty selection when the lengths agree;
      otherwise the values of the visible options. */
  function OnClickAll(options: seq<SelectOption>, visibleOptions: seq<SelectOption>,
                      value: Option<seq<string>>, hasOnChange: bool): (emitted: Option<seq<string>>)
    ensures emitted.None? <==> !hasOnChange
    ensures hasOnChange && MarkedSelected(options, value) ==> emitted == Some([])
    ensures hasOnChange && !MarkedSelected(options, value) ==>
              emitted.Some? && |emitted.value| == |visibleOptions| &&
              forall k :: 0 <= k < |visibleOptions| ==> emitted.value[k] == Key(visibleOptions[k])
  {
    if !hasOnChange then None
    else if value.Some? && |options| == |value.value| then Some([])
    else Some(Keys(visibleOptions))
  }

  /** One ASCII character lower-cased, as `toLowerCase` does. */
  function LowerChar(c: char): char {
    if 'A' <= c <= 'Z' then (c as int - 'A' as int + 'a' as int) as char else c
  }

  /** `toLowerCase` character by character. */
  function ToLower(s: string): string {
    seq(|s|, i requires 0 <= i < |s| => LowerChar(s[i]))
  }

  /** `e.key?.toLowerCase() === "enter" || e.key?.toLowerCase() === " "`. */
  predicate IsActivationKey(key: Option<string>) {
    key.Some? && (ToLower(key.value) == "enter" || ToLower(key.value) == " ")
  }

  /** A key-up: the click action for Enter or Space, nothing for any other key. */
  function OnKeyupAll(key: Option<string>, options: seq<SelectOption>,
                      visibleOptions: seq<SelectOption>, value: Option<seq<string>>,
                      hasOnChange: bool): Option<seq<string>> {
    if IsActivationKey(key) then OnClickAll(options, visibleOptions, value, hasOnChange) else None
  }

  /** "Enter" in any mix of upper and lower case, spelled out letter by letter. */
  predicate IsEnterAnyCase(k: string) {
    |k| == 5 && forall i :: 0 <= i < 5 ==> k[i] == "enter"[i] || k[i] == "ENTER"[i]
  }

  /** The keys that activate the button are exactly " " and the case variants of "enter". */
  lemma ActivationKeys(k: string)
    ensures IsActivationKey(Some(k)) <==> k == " " || IsEnterAnyCase(k)
  {
  }

  /** A key-up acts exactly like a click for " " and any casing of "enter", and does
      nothing for every other key, including an absent one. */
  lemma KeyupActsAsClick(key: Option<string>, options: seq<SelectOption>,
                         visibleOptions: seq<SelectOption>, value: Option<seq<string>>,
                         hasOnChange: bool)
    ensures OnKeyupAll(key, options, visibleOptions, value, hasOnChange) ==
              if key.Some? && (key.value == " " || IsEnterAnyCase(key.value))
              then OnClickAll(options, visibleOptions, value, hasOnChange)
              else None
  {
  }

  /** The marker is shown exactly when a click takes the clearing branch; without it a
      click selects the visible options, which is never empty when some are visible. */
  lemma MarkerMatchesClick(options: seq<SelectOption>, visibleOptions: seq<SelectOption>,
                           value: Option<seq<string>>)
    ensures MarkedSelected(options, value) ==> OnClickAll(options, visibleOptions, value, true) == Some([])
    ensures !MarkedSelected(options, value) && |visibleOptions| > 0 ==>
              OnClickAll(options, visibleOptions, value, true) != Some([])
  {
  }

  /** With an absent selection a click never clears, even when there are no options. */
  lemma AbsentValueNeverClears(options: seq<SelectOption>, visibleOptions: seq<SelectOption>)
    ensures !MarkedSelected(options, None)
    ensures OnClickAll(options, visibleOptions, None, true) == Some(Keys(visibleOptions))
  {
  }

  /** "All selected" compares lengths only: a selection of values that belong to no
      option still counts as complete when it is as long as the option list. */
  lemma LengthNotMembership()
    ensures var options := [SelectOption(None, Some("a"), None), SelectOption(None, Some("b"), None)];
            var value := Some(["x", "y"]);
            && (forall o | o in options :: Key(o) !in value.value)
            && MarkedSelected(options, value)
            && OnClickAll(options, options, value, true) == Some([])
  {
  }

  /** With nothing filtered out, select-all is a toggle: clicking on its own non-empty
      output clears, and clicking on the cleared selection selects every option again. */
  lemma ToggleRoundTrip(options: seq<SelectOption>, value: Option<seq<string>>)
    ensures var once := OnClickAll(options, options, value, true);
            once.value != [] ==> OnClickAll(options, options, once, true) == Some([])
    ensures OnClickAll(options, options, Some([]), true) == Some(Keys(options))
    ensures OnClickAll(options, options, OnClickAll(options, options, Some([]), true), true) == Some([])
  {
  }

  /** Where the length test does mean "all options are selected": options with distinct
      keys and a duplicate-free selection holding exactly those keys are marked, and a
      click clears. */
  lemma CompleteSelectionClears(options: seq<SelectOption>, visibleOptions: seq<SelectOption>,
                                vs: seq<string>)
    requires DistinctKeys(options) && Distinct(vs)
    requires (set v | v in vs) == KeySet(options)
    ensures MarkedSelected(options, Some(vs))
    ensures OnClickAll(options, visibleOptions, Some(vs), true) == Some([])
  {
    KeySetCardinality(options);
    DistinctCardinality(vs);
  }

  /** The converse, under the same conditions: a duplicate-free selection of option keys
      that is marked, and so takes the clearing branch, holds every option's key. */
  lemma MarkedMeansComplete(options: seq<SelectOption>, vs: seq<string>)
    requires DistinctKeys(options) && Distinct(vs)
    requires forall v | v in vs :: v in KeySet(options)
    requires MarkedSelected(options, Some(vs))
    ensures (set v | v in vs) == KeySet(options)
  {
    KeySetCardinality(options);
    DistinctCardinality(vs);
    var a, b := (set v | v in vs), KeySet(options);
    assert a <= b;
    assert |b - a| == |b| - |a|;
    assert b - a == {};
  }

  /** Select-all on distinctly keyed options emits a valid multiple selection: no text
      twice, and exactly the keys of those options. */
  lemma KeysOfDistinct(opts: seq<SelectOption>)
    requires DistinctKeys(opts)
    ensures Distinct(Keys(opts))
    ensures (set v | v in Keys(opts)) == KeySet(opts)
  {
    var keys := Keys(opts);
    forall v | v in KeySet(opts) ensures v in keys {
      var o :| o in opts && Key(o) == v;
      var i :| 0 <= i < |opts| && opts[i] == o;
      assert keys[i] == v;
    }
  }

  /** The opposite miss of the length test: every option selected plus one extra value
      is not "all selected", so a click selects the options again instead of clearing. */
  lemma SupersetDoesNotClear()
    ensures var options := [SelectOption(None, Some("a"), None)];
            var value := Some(["a", "x"]);
            && (forall o | o in options :: Key(o) in value.value)
            && !MarkedSelected(options, value)
            && OnClickAll(options, options, value, true) == Some(["a"])
  {
    var keys := Keys([SelectOption(None, Some("a"), None)]);
    assert |keys| == 1 && keys[0] == "a";
    assert keys == ["a"];
  }

  /** Select-all can emit the same text twice: two options without a value both print
      as "undefined". */
  lemma DuplicateKeysEmitted()
    ensures var valueless := SelectOption(None, None, None);
            OnClickAll([valueless, valueless], [valueless, valueless], None, true)
              == Some(["undefined", "undefined"])
  {
    var valueless := SelectOption(None, None, None);
    var keys := Keys([valueless, valueless]);
    assert |keys| == 2 && keys[0] == UndefinedText && keys[1] == UndefinedText;
    assert keys == ["undefined", "undefined"];
  }
}

=== FILE: select_examples.dfy ===
/** Concrete displays for the option list the widget's own tests use. */
module SelectExamples {
  import opened Wrappers
  import opened SelectTypes
  import opened SelectedValues

  function Labelled(text: string, value: string): SelectOption {
    SelectOption(Some(text), Some(value), None)
  }

  /** The first ten test options, `{label: "String i label", value: "stringi"}`. */
  const TestOptions: seq<SelectOption> := [
    Labelled("String 1 label", "string1"), Labelled("String 2 label", "string2"),
    Labelled("String 3 label", "string3"), Labelled("String 4 label", "string4"),
    Labelled("String 5 label", "string5"), Labelled("String 6 label", "string6"),
    Labelled("String 7 label", "string7"), Labelled("String 8 label", "string8"),
    Labelled("String 9 label", "string9"), Labelled("String 10 label", "string10")]

  function SingleProps(options: seq<SelectOption>, value: Option<string>, placeholder: Option<string>): Props {
    Props(options, Single(value), placeholder, false, Some("Selected"), false, false)
  }

  /** A single select shows the label of the option its value names. */
  lemma ShowsSelectedLabel()
    ensures Render(SingleProps(TestOptions, Some("string2"), None)) == Text("String 2 label", false)
  {
  }

  /** Without a value the placeholder is shown. */
  lemma ShowsPlaceholderWithoutValue()
    ensures Render(SingleProps(TestOptions, None, Some("Test placeholder"))) == Placeholder(Some("Test placeholder"))
  {
    assert FindIndex(TestOptions, None) == None by {
      forall i | 0 <= i < |TestOptions| ensures TestOptions[i].value != None {
        assert TestOptions[i].value.Some?;
      }
    }
  }

  /** An empty value that names an option `{label: "No value", value: ""}` shows that
      label, not the placeholder. */
  lemma EmptyValueShowsItsOption()
    ensures var options := TestOptions + [Labelled("No value", "")];
            Render(SingleProps(options, Some(""), Some("Should not be visible"))) == Text("No value", false)
  {
    var options := TestOptions + [Labelled("No value", "")];
    forall j | 0 <= j < 10 ensures options[j].value != Some("") {
      assert options[j] == TestOptions[j];
    }
    assert FirstMatchAt(options, Some(""), 10);
  }

  /** A multiple select with two values shows "Selected 2". */
  lemma ShowsSelectedCount()
    ensures Render(Props(TestOptions, Multiple(Some(["string2", "string4"])), None, false, Some("Selected"), false, false))
              == Summary(Some("Selected"), 2, false)
  {
  }

  /** An absent single value matches the first option whose value is absent too, so its
      label is shown instead of the placeholder. */
  lemma AbsentValueMatchesValuelessOption()
    ensures Render(SingleProps([SelectOption(Some("Any"), None, None)], None, Some("Pick one")))
              == Text("Any", false)
  {
  }

  /** In tag mode an option without a value is keyed "undefined", so selecting that
      text shows it as a chip carrying its label. */
  lemma ValuelessOptionTaggedByUndefined()
    ensures var valueless := SelectOption(Some("None"), None, None);
            Render(Props([valueless], Multiple(Some(["undefined"])), None, true, None, true, true))
              == Tags(Some(1), [valueless], true)
    ensures Render(Props([SelectOption(Some("None"), None, None)], Multiple(Some(["undefined"])), None, true, None, true, true))
              .Chips() == [LabelChip(Some("None"))]
  {
  }
}

=== FILE: select_types.dfy ===
/** The prop shapes of the select widget (src/Select.types.ts) and the JavaScript
    value semantics the helpers rely on. `ReactText` is modelled as text. */
module SelectTypes {
  import opened Wrappers

  /** A caller-supplied render fragment. Nothing in the helpers inspects it, so it is
      opaque: two fragments are the same exactly when their identities are. */
  datatype Component = Component(id: nat)

  /** One entry of the option list; every field may be left out. `labelText` is the
      `label` field (`label` is a Dafny keyword). */
  datatype SelectOption = SelectOption(
    labelText: Option<string>,
    value: Option<string>,
    component: Option<Component>)

  /** The value prop, tagged by the `multiple` discriminant: a single optional text,
      or an optional list of texts. */
  datatype Selection =
    | Single(value: Option<string>)
    | Multiple(values: Option<seq<string>>)

  /** JavaScript truthiness of an optional text: `undefined` and `""` are falsy. */
  predicate Truthy(s: Option<string>) {
    s.Some? && s.value != ""
  }

  /** JavaScript `a || b` on optional texts: `a` when it is truthy, otherwise `b`. */
  function Or(a: Option<string>, b: Option<string>): Option<string> {
    if Truthy(a) then a else b
  }

  /** How `undefined` prints inside a template literal. */
  const UndefinedText: string := "undefined"

  /** The template literal `${option.value}`: the option's value, or "undefined". */
  function Key(o: SelectOption): string {
    match o.value
    case Some(v) => v
    case None => UndefinedText
  }

  /** Options keyed by distinct texts. */
  ghost predicate DistinctKeys(options: seq<SelectOption>) {
    forall i, j :: 0 <= i < j < |options| ==> Key(options[i]) != Key(options[j])
  }

  /** The keys of all options. */
  ghost function KeySet(options: seq<SelectOption>): set<string> {
    set o | o in options :: Key(o)
  }

  lemma DistinctKeysTail(options: seq<SelectOption>)
    requires DistinctKeys(options) && |options| > 0
    ensures DistinctKeys(options[1..])
    ensures KeySet(options) == {Key(options[0])} + KeySet(options[1..])
    ensures Key(options[0]) !in KeySet(options[1..])
  {
  }

  /** Distinctly keyed options have as many keys as options. */
  lemma {:induction false} KeySetCardinality(options: seq<SelectOption>)
    requires DistinctKeys(options)
    ensures |KeySet(options)| == |options|
  {
    if |options| == 0 {
      assert KeySet(options) == {};
    } else {
      DistinctKeysTail(options);
      KeySetCardinality(options[1..]);
    }
  }
}

=== FILE: selected_values.dfy ===
/** What the closed select control shows (src/helpers/SelectedValues.tsx): the
    placeholder, one text, a "selected N" summary, or a list of tag chips, and
    whether a clear button accompanies it. */
module SelectedValues {
  import opened Wrappers
  import opened SelectTypes
  import opened Sequences

  /** The props the renderer reads. The `multiple` flag is the tag of `selection`. */
  datatype Props = Props(
    options: seq<SelectOption>,
    selection: Selection,
    placeholder: Option<string>,
    asTags: bool,
    textSelected: Option<string>,
    allowTagsCount: bool,
    allowClear: bool)

  /** What one tag chip shows: the option's component, or else its label. */
  datatype Chip = ComponentChip(component: Component) | LabelChip(labelText: Option<string>)

  /** The four outcomes; `clear` says whether the clear button is rendered. */
  datatype Display =
    | Placeholder(placeholder: Option<string>)
    | Text(text: string, clear: bool)
    | Summary(textSelected: Option<string>, count: nat, clear: bool)
    | Tags(badge: Option<nat>, tagged: seq<SelectOption>, clear: bool)
  {
    /** The chips of a tag display, one per tagged option, in the same order. */
    function Chips(): seq<Chip>
      requires Tags?
    {
      seq(|tagged|, k requires 0 <= k < |tagged| => ChipOf(tagged[k]))
    }
  }

  /** `option.component || option.label`: a supplied component wins over the label. */
  function ChipOf(o: SelectOption): (c: Chip)
    ensures c.ComponentChip? <==> o.component.Some?
    ensures c.ComponentChip? ==> c.component == o.component.value
    ensures c.LabelChip? ==> c.labelText == o.labelText
  {
    match o.component
    case Some(comp) => ComponentChip(comp)
    case None => LabelChip(o.labelText)
  }

  // ---------------------------------------------------------------------------
  // Single mode
  // ---------------------------------------------------------------------------

  /** Index `i` holds the first option whose value is `value` (strict equality, so an
      absent value matches an option whose value is absent too). */
  ghost predicate FirstMatchAt(options: seq<SelectOption>, value: Option<string>, i: int) {
    && 0 <= i < |options|
    && options[i].value == value
    && forall j :: 0 <= j < i ==> options[j].value != value
  }

  /** `options.find((option) => value === option.value)`, as the index it stops at. */
  function FindIndex(options: seq<SelectOption>, value: Option<string>): (r: Option<nat>)
    ensures r.Some? ==> FirstMatchAt(options, value, r.value)
    ensures r.None? <==> forall i :: 0 <= i < |options| ==> options[i].value != value
  {
    if |options| == 0 then None
    else if options[0].value == value then Some(0)
    else
      match FindIndex(options[1..], value)
      case None => None
      case Some(i) => Some(i + 1)
  }

  /** The label of the option `find` returns, or `undefined` when there is none. */
  function MatchedLabel(options: seq<SelectOption>, value: Option<string>): Option<string> {
    match FindIndex(options, value)
    case Some(i) => options[i].labelText
    case None => None
  }

  /** Single mode: `label || value` is shown when truthy, else the placeholder. */
  function SingleDisplay(options: seq<SelectOption>, value: Option<string>,
                         placeholder: Option<string>, allowClear: bool): (r: Display)
    ensures r.Placeholder? || r.Text?
    ensures forall i | FirstMatchAt(options, value, i) && Truthy(options[i].labelText) ::
              r == Text(options[i].labelText.value, allowClear)
    ensures (forall i | FirstMatchAt(options, value, i) :: !Truthy(options[i].labelText)) ==>
              r == if Truthy(value) then Text(value.value, allowClear) else Placeholder(placeholder)
  {
    var shown := Or(MatchedLabel(options, value), value);
    if Truthy(shown) then Text(shown.value, allowClear) else Placeholder(placeholder)
  }

  // ---------------------------------------------------------------------------
  // Multiple mode, tags
  // ---------------------------------------------------------------------------

  /** `value?.includes(`${option.value}`)`: false when the selection is absent. */
  predicate IsTagged(o: SelectOption, values: Option<seq<string>>) {
    values.Some? && Key(o) in values.value
  }

  /** `tagged` holds exactly the tagged options of `options`, each as often as it occurs
      there, in option-list order. */
  ghost predicate TagSelection(tagged: seq<SelectOption>, options: seq<SelectOption>,
                               values: Option<seq<string>>) {
    && (forall o :: o in tagged <==> o in options && IsTagged(o, values))
    && (forall o :: multiset(tagged)[o] == if IsTagged(o, values) then multiset(options)[o] else 0)
    && IsSubsequence(tagged, options)
  }

  /** `options.filter(...)` keeping the options whose key is in the selection. */
  function TagOptions(options: seq<SelectOption>, values: Option<seq<string>>): (tagged: seq<SelectOption>)
    ensures TagSelection(tagged, options, values)
  {
    if |options| == 0 then []
    else
      var rest := TagOptions(options[1..], values);
      assert options == [options[0]] + options[1..];
      if IsTagged(options[0], values) then [options[0]] + rest else rest
  }

  /** Tag mode: the placeholder when no option is tagged, else the chips, the optional
      count badge and the optional clear button. */
  function TagsDisplay(options: seq<SelectOption>, values: Option<seq<string>>,
                       placeholder: Option<string>, allowTagsCount: bool,
                       allowClear: bool): (r: Display)
    ensures r.Placeholder? || r.Tags?
    ensures r.Placeholder? <==> forall i :: 0 <= i < |options| ==> !IsTagged(options[i], values)
    ensures r.Placeholder? ==> r.placeholder == placeholder
    ensures r.Tags? ==> TagSelection(r.tagged, options, values) && r.clear == allowClear
    ensures r.Tags? ==> r.badge == if allowTagsCount then Some(|r.tagged|) else None
  {
    var tags := TagOptions(options, values);
    if |tags| == 0 then
      assert forall i :: 0 <= i < |options| ==> options[i] in options;
      Placeholder(placeholder)
    else
      assert tags[0] in tags;
      Tags(if allowTagsCount then Some(|tags|) else None, tags, allowClear)
  }

  // ---------------------------------------------------------------------------
  // The renderer
  // ---------------------------------------------------------------------------

  /** The whole decision of the renderer. */
  function Render(p: Props): (r: Display)
    ensures r.Placeholder? ==> r.placeholder == p.placeholder
    ensures !r.Placeholder? ==> r.clear == p.allowClear
    ensures r.Text? ==> r.text != ""
    ensures p.selection.Single? ==> r.Placeholder? || r.Text?
    ensures p.selection.Multiple? && p.asTags ==> r.Placeholder? || r.Tags?
    ensures p.selection.Multiple? && !p.asTags ==> r.Placeholder? || r.Summary?
    ensures p.selection.Multiple? && !p.asTags ==>
              (r.Summary? <==> p.selection.values.Some? && |p.selection.values.value| > 0)
    ensures r.Summary? ==> r.count == |p.selection.values.value| && r.textSelected == p.textSelected
  {
    match p.selection
    case Multiple(values) =>
      if p.asTags then
        TagsDisplay(p.options, values, p.placeholder, p.allowTagsCount, p.allowClear)
      else if values.Some? && |values.value| > 0 then
        Summary(p.textSelected, |values.value|, p.allowClear)
      else
        Placeholder(p.placeholder)
    case Single(value) =>
      SingleDisplay(p.options, value, p.placeholder, p.allowClear)
  }

  // ---------------------------------------------------------------------------
  // Properties relating the branches
  // ---------------------------------------------------------------------------

  /** The summary counts every entry of the selection, whether or not it names an
      option: replacing the option list does not change it. */
  lemma SummaryIgnoresOptions(p: Props, others: seq<SelectOption>)
    requires p.selection.Multiple? && !p.asTags
    ensures Render(p.(options := others)) == Render(p)
  {
  }

  lemma TagCountCons(options: seq<SelectOption>, values: Option<seq<string>>)
    requires |options| > 0
    ensures |TagOptions(options, values)| ==
              (if IsTagged(options[0], values) then 1 else 0) + |TagOptions(options[1..], values)|
  {
  }

  lemma SelectedKeysCons(options: seq<SelectOption>, selected: set<string>)
    requires DistinctKeys(options) && |options| > 0
    ensures DistinctKeys(options[1..])
    ensures |selected * KeySet(options)| ==
              (if Key(options[0]) in selected then 1 else 0) + |selected * KeySet(options[1..])|
  {
    DistinctKeysTail(options);
    var head := Key(options[0]);
    if head in selected {
      assert selected * KeySet(options) == {head} + selected * KeySet(options[1..]);
    } else {
      assert selected * KeySet(options) == selected * KeySet(options[1..]);
    }
  }

  /** With distinctly keyed options, one chip is shown per selected text that is the key
      of some option. */
  lemma {:induction false} TagCountIsSelectedKeys(options: seq<SelectOption>, vs: seq<string>)
    requires DistinctKeys(options)
    ensures |TagOptions(options, Some(vs))| == |(set v | v in vs) * KeySet(options)|
  {
    if |options| == 0 {
      assert KeySet(options) == {};
    } else {
      TagCountCons(options, Some(vs));
      SelectedKeysCons(options, set v | v in vs);
      TagCountIsSelectedKeys(options[1..], vs);
    }
  }

  /** When the selection is duplicate-free and names only options, and options are
      keyed distinctly, there is one tag per selected value: the count badge of the tag
      display equals the count the summary display shows. */
  lemma TagCountMatchesSummaryCount(options: seq<SelectOption>, vs: seq<string>)
    requires DistinctKeys(options) && Distinct(vs)
    requires forall v | v in vs :: exists i :: 0 <= i < |options| && Key(options[i]) == v
    ensures |TagOptions(options, Some(vs))| == |vs|
  {
    TagCountIsSelectedKeys(options, vs);
    DistinctCardinality(vs);
    var selected := set v | v in vs;
    assert selected * KeySet(options) == selected by {
      forall v | v in selected ensures v in KeySet(options) {
        var i :| 0 <= i < |options| && Key(options[i]) == v;
        assert options[i] in options;
      }
    }
  }
}

=== FILE: sequences.dfy ===
/** Order-preserving selection from a sequence, stated independently of any algorithm. */
module Sequences {

  /** `a` can be obtained from `b` by deleting elements, keeping the order of the rest. */
  ghost predicate IsSubsequence<T>(a: seq<T>, b: seq<T>)
    decreases |b|
  {
    if |a| == 0 then true
    else if |b| == 0 then false
    else (a[0] == b[0] && IsSubsequence(a[1..], b[1..])) || IsSubsequence(a, b[1..])
  }

  /** No element occurs twice. */
  ghost predicate Distinct<T>(s: seq<T>) {
    forall i, j :: 0 <= i < j < |s| ==> s[i] != s[j]
  }

  /** A duplicate-free sequence has as many elements as the set of its elements. */
  lemma {:induction false} DistinctCardinality<T>(s: seq<T>)
    requires Distinct(s)
    ensures |set x | x in s| == |s|
  {
    if |s| > 0 {
      var rest := s[1..];
      assert Distinct(rest) by {
        forall i, j | 0 <= i < j < |rest| ensures rest[i] != rest[j] {
          assert rest[i] == s[i + 1] && rest[j] == s[j + 1];
        }
      }
      DistinctCardinality(rest);
      assert (set x | x in s) == {s[0]} + (set x | x in rest) by {
        assert s == [s[0]] + rest;
      }
      assert s[0] !in rest by {
        forall j | 0 <= j < |rest| ensures rest[j] != s[0] {
          assert rest[j] == s[j + 1];
        }
      }
    }
  }
}

=== FILE: wrappers.dfy ===
/** The optional-value datatype used for every prop the widget may leave undefined. */
module Wrappers {

  /** `None` stands for JavaScript's `undefined`. */
  datatype Option<+T> = None | Some(value: T)
}
